=== FILE: README.md ===
# Device registry, order guard and WebSocket gate of the employee-order-list server

The server of employee-order-list lets field devices register, submit orders
and receive commands. It bridges a REST API to an MQTT broker that it serves
over WebSockets. The broker itself is a third-party library. The logic the
application implements on its own sits in `server.js`, and this project
models it:

- **Device registry.** `DEVICES` is an in-memory array. `findDevice` looks a
  request up in it. `POST /devices` registers a device and `GET /devices`
  lists them. Registration answers 400 when `username` or `empId` is falsy.
  It answers 409 with the first stored device whose `emp_id` is strictly
  equal to `empId` OR whose username equals `username` ignoring case. This is
  a disjunction, not a compound key. Otherwise it appends
  `{ username, emp_id, created_at }` and answers 201. Both the 409 and the
  201 hold only if the lookup does not first reach a device on which
  `toLowerCase` throws, because one of the two usernames is not a string.
  That case answers 500.
- **Order guard.** `POST /orders` accepts a payload only when `name` and
  `emp_id` are truthy and `order_list` is an array. Only an accepted payload
  is published, once, on the status topic, with QoS 1 and without retain.
- **Upgrade gate.** A WebSocket connection is handed to the broker only when
  the pathname of its request URL equals the configured path (default
  `/mqtt`). Any other connection is closed.

## How the model is built

- `js_value.dfy` (`JsValue`) holds the request fields as the JSON values
  JavaScript sees. The only type check in the handlers is
  `Array.isArray(order_list)`. Otherwise they test truthiness (`!x`,
  `x || y`), compare with `===` and read properties of `req.body || {}`.
  So a username or an employee id may be a number, an array or an object,
  and the model keeps that. `===` compares arrays and objects by reference,
  so a stored one never equals a freshly parsed one.
- `registry.dfy` (`Registry`) threads the device array through pure
  functions as an immutable sequence. `Date.now()` becomes the parameter
  `now`. `Find` follows JavaScript's evaluation order. It compares the ids
  first. Only when they differ does it call `toLowerCase` on the stored
  username and then on the new one. Calling `toLowerCase` on a value that is
  not a string throws a TypeError, which Express turns into a 500 reply. The
  model names that reply `Fault`. `List` (`GET /devices`) returns the
  sequence itself.
- `registry_properties.dfy` (`RegistryProperties`) holds the properties of
  the registry:
  - the uniqueness invariant `Valid` is kept by every registration and by
    every run of registrations;
  - after a run, the list holds exactly the created records, in request order;
  - a repeated primitive employee id never registers twice;
  - on a valid registry, with a non-empty string username and a truthy
    employee id, either identity condition alone is enough for a conflict.
- `orders.dfy` (`Orders`) models `POST /orders`. The broker's
  acknowledgement is the parameter `publishError`. Publications are
  returned as a sequence, so "nothing is published" is a statement about
  the result.
- `transport.dfy` (`Transport`) models the `connection` handler on the
  request URL. `settings.dfy` (`Settings`) holds the configuration the
  handlers read, with the defaults `/mqtt` and `devices/status`.

Behaviour of the code worth knowing:

- Registration accepts any truthy JSON value for the identity fields, not
  only strings.
- An array or object employee id never matches a stored one, because `===`
  compares them by reference. After a first registration under a string
  username, the same such id can therefore be registered again under a
  non-empty string username that differs, ignoring case, from every stored
  one (`CompoundIdRegistersTwice`). This is why `SameEmpIdTwice` speaks only of
  primitive ids.
- Registering the same employee id a second time does not always return the
  first call's record as `existing`. `Array.find` returns the earliest
  match, and an earlier device may match the second username ignoring case.
  It is not always a 409 either: a username that is not a string makes the
  lookup throw. `SameEmpIdTwice` states the exact outcome.
- A truthy username that is not a string can be stored only in an empty
  registry. From then on, every registration with truthy fields and a
  different employee id fails with a TypeError (`NonStringUsernameBlocksLaterIds`).
- A WebSocket on a wrong path is not refused before the handshake. The
  server accepts every upgrade and then closes the socket in its
  `connection` handler.

## Model

| member | source | states |
|---|---|---|
| JsValue.Truthy | server.js:76 | the falsy values are exactly `undefined`, `null`, `false`, `0` and the empty string; arrays and objects, even empty, are truthy |
| JsValue.StrictEquals | server.js:48 | `===` holds exactly for equal primitive values; two arrays or objects from separate parses are never equal |
| JsValue.Field | server.js:75 | a destructured field is `undefined` unless the body is an object that has that key, and is then that key's value |
| Registry.Lower | server.js:48 | lowering keeps the length, leaves no capital letter, and keeps each character the same letter ignoring case |
| Registry.LowerCharAgrees | server.js:48 | two characters lower to the same character exactly when they are the same letter ignoring case |
| Registry.LowerAgrees | server.js:48 | two usernames lower to the same string exactly when they have the same length and agree character by character ignoring case |
| Registry.LowerIdempotent | server.js:48 | lowering a lowered string changes nothing |
| Registry.Callback | server.js:48 | for a truthy username, the callback returns true exactly when the ids are strictly equal or the usernames are equal ignoring case, and throws exactly when the ids differ and either username is not a string |
| Registry.Find | server.js:47-48 | the lookup is `undefined` exactly when the callback returns false on every device; otherwise it stops at the first device where it does not, returning that device on a match and throwing on a TypeError |
| Registry.Register | server.js:74-86 | 400 exactly when a field is falsy; 201 exactly when no device matches or throws, and then exactly `{username, empId, now}` is appended; 409 carries the earliest matching device with nothing matching or throwing before it; 500 exactly when the first device that stops the lookup throws; every reply other than 201 leaves the list unchanged |
| Registry.List | server.js:72 | `GET /devices` returns the stored sequence itself; its order after any run of registrations is stated by `RegistryProperties.ReplayListsInInsertionOrder` |
| Registry.RegisterBody | server.js:74-78 | a body that is missing or not an object is a 400 with the list unchanged; a created record carries the body's own `username` and `empId` values |
| RegistryProperties.RegisterPreservesValid | server.js:79-84 | every registration keeps the invariant: no two devices share an employee id under `===`, no two share a username ignoring case, all identity fields are truthy, and only a sole device may have a non-string username |
| RegistryProperties.ReplayPreservesValid | server.js:74-86 | any run of registrations on a valid registry leaves it valid |
| RegistryProperties.ReplayListsInInsertionOrder | server.js:72-85 | after any run of registrations, the list is the initial devices followed by exactly the records the 201 replies returned, in request order |
| RegistryProperties.SameEmpIdTwice | server.js:79-85 | after a successful registration, registering the same primitive employee id again, with any truthy username, never succeeds and leaves the list unchanged; it throws exactly when the new username is not a string and older devices exist; otherwise it is a 409 carrying the first call's record whenever no older device has the new username ignoring case, in particular when the two usernames agree ignoring case |
| RegistryProperties.CompoundIdRegistersTwice | server.js:48 | an array or object employee id registered once under a string username can be registered again under a non-empty string username that matches, ignoring case, neither the first username nor any stored one, and the second registration is appended too |
| RegistryProperties.EitherConditionConflicts | server.js:47-48 | on a valid registry, with a non-empty string username and a truthy employee id, a device matching on the employee id alone or on the username alone is enough for a 409, carrying that device or an earlier one |
| RegistryProperties.NonStringUsernameBlocksLaterIds | server.js:47-48 | a truthy non-string username registered into an empty registry is stored, and every later registration with truthy fields and an employee id not strictly equal to the first throws and leaves the list unchanged |
| RegistryProperties.CaseVariantConflicts | server.js:48 | registering "Alice" and then "alice" under another employee id is a 409 carrying the first record |
| Orders.SubmitOrder | server.js:93-103 | 400 exactly when `name` or `emp_id` is falsy or `order_list` is not an array, with nothing published; otherwise exactly one publication of `{name, emp_id, order_list, ts}` on the status topic with QoS 1 and no retain, answered 500 exactly when the broker reports an error |
| Orders.OrderListMustBeArray | server.js:95-97 | a missing or non-array `order_list` is refused with nothing published, whatever the other fields hold |
| Orders.AnyArrayIsAccepted | server.js:95-101 | any array, even an empty one, is an acceptable `order_list` when `name` and `emp_id` are truthy |
| Orders.RejectedOrdersPublishNothing | server.js:95-99 | a batch of orders publishes exactly as many messages as it has well-formed orders |
| Transport.PathEnd | server.js:61 | the path part ends at the first `?` or `#`, or at the end of the request target |
| Transport.PathEndUnique | server.js:61 | that end is the only length whose prefix holds no delimiter and which stops at a delimiter or at the end |
| Transport.Pathname | server.js:61 | the pathname is absent exactly when the request target is empty or starts with `?` or `#`; otherwise it is the non-empty prefix of the target that runs up to the first `?` or `#`, or to the end |
| Transport.PathnameIs | server.js:61-62 | the pathname equals `w` exactly when `w` is non-empty and plain and the request target is `w` itself or `w` followed by `?` or `#` |
| Transport.OnConnection | server.js:60-69 | with the pathname taken as the modelled `Pathname`, the socket is handed to the broker exactly when the request target is the configured path, possibly followed by a query or a fragment, and that path is non-empty and contains no `?` or `#`; otherwise it is closed |
| Transport.QueryDoesNotMatter | server.js:61-62 | appending a query string or a fragment to any request target never changes whether the connection is handed over |
| Transport.DefaultPathExamples | server.js:18 | with the default path `/mqtt`, `/mqtt` and `/mqtt?x=1` are handed over; `/`, `/mqtt/` and `/MQTT` are closed |

## Left out

- Registry.Lower: folds only the ASCII letters A–Z. JavaScript's `toLowerCase` applies full Unicode case mapping, so usernames containing non-ASCII letters are not matched as the server matches them. For example, the Kelvin sign U+212A lowers to `k`, so the server treats "\u212Aate" and "kate" as the same username; the model does not. Also, `toLowerCase` can change a string's length (for example `'İ'`), while `Lower` never does.
- Transport.Pathname: keeps only the split at the first `?` or `#` and gives `null` for an empty path. Node's legacy URL parser also trims whitespace, turns backslashes before the query into `/`, escapes some characters and parses absolute-form targets; none of this is modelled.
- Transport.OnConnection: also inherits that gap for origin-form targets that start with `//` and carry an `@`. Node's legacy parser treats `//user@host/mqtt` as authority plus path and gives the pathname `/mqtt`, so the server hands that socket to the broker, while the model closes it.
- Strings are sequences of Unicode scalar values. JavaScript strings are sequences of UTF-16 code units and may hold lone surrogates (`JSON.parse` accepts `"\ud800"`); such a username or employee id cannot be represented in the model.
- Numbers in request bodies are mathematical reals. Floating-point rounding is not modelled; JSON cannot produce `NaN`, and `0` and `-0` are the same real, as they are under `===`.
- The MQTT broker (topic matching, retained messages, sessions, QoS, delivery) is a third-party library that the application only calls; publishing is modelled as the returned sequence of publications.
- `POST /command`, `GET /health`, the 426 reply on the WebSocket path, static files and the HTML routes are routing and framework plumbing outside the modelled core.
- Adapting the WebSocket to a byte stream and starting the HTTP server are transport I/O.
- The JSON text of replies and of published envelopes is not modelled, only the fields they carry; `Date.now()` is the parameter `now`.
- Reading the configuration from the environment and console logging are left out; `Settings.Config` is a parameter.
- Concurrency: Node runs each handler to completion on one thread, so registrations are sequential, as `RegistryProperties.Replay` processes them.

=== FILE: js_value.dfy ===
/** The JavaScript values a request body can carry after JSON parsing, and
    the three JavaScript operations the handlers apply to them: truthiness
    (`!x`, `x || y`), strict equality (`===`) and property access on a body
    that may be absent (`const { a } = req.body || {}`). */
module JsValue {

  /** A value produced by `JSON.parse`, plus `undefined` for a property that
      is not there. Numbers are modelled as mathematical reals. */
  datatype Value =
    | Undefined
    | Null
    | Bool(b: bool)
    | Num(x: real)
    | Str(s: string)
    | Arr(items: seq<Value>)
    | Obj(fields: map<string, Value>)

  /** Arrays and objects are compared by reference; everything else by value. */
  predicate Primitive(v: Value) {
    !v.Arr? && !v.Obj?
  }

  /** JavaScript truthiness: `undefined`, `null`, `false`, `0`, `-0` and the
      empty string are falsy; every array and object is truthy, even `[]`
      and `{}`. */
  function Truthy(v: Value): (t: bool)
    ensures !t <==> v in {Undefined, Null, Bool(false), Num(0.0), Str("")}
  {
    match v
    case Undefined => false
    case Null => false
    case Bool(b) => b
    case Num(x) => x != 0.0
    case Str(s) => s != []
    case Arr(_) => true
    case Obj(_) => true
  }

  /** `a || b` */
  function Or(a: Value, b: Value): Value {
    if Truthy(a) then a else b
  }

  /** `a === b` where `a` and `b` were produced by two separate parses, so two
      arrays or objects are never the same reference. */
  function StrictEquals(a: Value, b: Value): (eq: bool)
    ensures eq <==> a == b && Primitive(a)
  {
    match a
    case Undefined => b.Undefined?
    case Null => b.Null?
    case Bool(x) => b.Bool? && b.b == x
    case Num(x) => b.Num? && b.x == x
    case Str(x) => b.Str? && b.s == x
    case Arr(_) => false
    case Obj(_) => false
  }

  /** Reading property `key` of `req.body || {}`: only an object carries
      the named properties; a missing body, a primitive or an array yields
      `undefined` for every key a handler reads. */
  function Field(body: Value, key: string): (v: Value)
    ensures v != Undefined ==> body.Obj? && key in body.fields && body.fields[key] == v
    ensures body.Obj? && key in body.fields ==> v == body.fields[key]
  {
    match Or(body, Obj(map[]))
    case Obj(fields) => if key in fields then fields[key] else Undefined
    case _ => Undefined
  }
}

=== FILE: orders.dfy ===
/** The `POST /orders` handler: validates the order payload and, only when it
    is well formed, publishes one message on the status topic. The broker's
    acknowledgement is the parameter `publishError`; the JSON text of the
    message is not modelled, only the fields it carries. */
module Orders {
  import opened JsValue
  import opened Settings

  /** The fields of the published JSON envelope, `ts` being the clock. */
  datatype Payload = Payload(name: Value, empId: Value, orderList: Value, ts: int)

  /** One call of `broker.publish`. */
  datatype Publication = Publication(topic: string, payload: Payload, qos: nat, retain: bool)

  /** 400 for a bad payload, 200 once the broker acknowledged, 500 when it
      reported an error. */
  datatype Status = BadRequest | Ok | PublishFailed

  /** The response and every publication the request caused, in order. */
  datatype Response = Response(status: Status, published: seq<Publication>)

  /** The guard: `name` and `emp_id` truthy, `order_list` an array. */
  predicate WellFormed(name: Value, empId: Value, orderList: Value) {
    Truthy(name) && Truthy(empId) && orderList.Arr?
  }

  /** `POST /orders` on the parsed request body. */
  function SubmitOrder(cfg: Config, body: Value, now: int, publishError: bool): (r: Response)
    ensures var name, empId, orderList := Field(body, "name"), Field(body, "emp_id"), Field(body, "order_list");
            && (r.status == BadRequest <==> !WellFormed(name, empId, orderList))
            && (r.status == BadRequest ==> r.published == [])
            && (r.status != BadRequest ==>
                  r.published == [Publication(cfg.statusTopic, Payload(name, empId, orderList, now), 1, false)])
            && (r.status == PublishFailed <==> r.status != BadRequest && publishError)
  {
    var name, empId, orderList := Field(body, "name"), Field(body, "emp_id"), Field(body, "order_list");
    if !Truthy(name) || !Truthy(empId) || !orderList.Arr? then
      Response(BadRequest, [])
    else
      var message := Publication(cfg.statusTopic, Payload(name, empId, orderList, now), 1, false);
      Response(if publishError then PublishFailed else Ok, [message])
  }

  /** An order without `order_list`, or with one that is not an array,
      is refused and publishes nothing, whatever else it carries. */
  lemma OrderListMustBeArray(cfg: Config, body: Value, now: int, publishError: bool)
    requires !Field(body, "order_list").Arr?
    ensures SubmitOrder(cfg, body, now, publishError) == Response(BadRequest, [])
  {
  }

  /** The guard asks only that `order_list` be an array: an empty array,
      or one holding anything at all, is accepted and published. */
  lemma AnyArrayIsAccepted(cfg: Config, name: Value, empId: Value, items: seq<Value>, now: int)
    requires Truthy(name) && Truthy(empId)
    ensures var body := Obj(map["name" := name, "emp_id" := empId, "order_list" := Arr(items)]);
            SubmitOrder(cfg, body, now, false)
              == Response(Ok, [Publication(cfg.statusTopic, Payload(name, empId, Arr(items), now), 1, false)])
  {
  }

  /** The publications of a batch of orders handled one after another. The
      broker's answer does not change what is published, so every publish
      is taken to succeed. */
  function PublishAll(cfg: Config, bodies: seq<Value>, now: int): seq<Publication>
    decreases |bodies|
  {
    if |bodies| == 0 then []
    else SubmitOrder(cfg, bodies[0], now, false).published + PublishAll(cfg, bodies[1..], now)
  }

  /** The number of well-formed bodies in a batch. */
  function CountWellFormed(bodies: seq<Value>): nat
    decreases |bodies|
  {
    if |bodies| == 0 then 0
    else (if WellFormed(Field(bodies[0], "name"), Field(bodies[0], "emp_id"), Field(bodies[0], "order_list")) then 1 else 0)
         + CountWellFormed(bodies[1..])
  }

  /** Rejected orders leave no trace on the broker: a batch publishes
      exactly as many messages as it has well-formed orders. */
  lemma {:induction false} RejectedOrdersPublishNothing(cfg: Config, bodies: seq<Value>, now: int)
    ensures |PublishAll(cfg, bodies, now)| == CountWellFormed(bodies)
    decreases |bodies|
  {
    if |bodies| > 0 {
      RejectedOrdersPublishNothing(cfg, bodies[1..], now);
    }
  }
}

=== FILE: registry.dfy ===
/** The in-memory device registry: the `DEVICES` array, its lookup
    `findDevice`, and the `POST /devices` and `GET /devices` handlers.
    The array is an immutable sequence threaded through the operations;
    the clock is the parameter `now`. */
module Registry {
  import opened JsValue

  /** One registered device, `{ username, emp_id, created_at }`. The two
      identity fields keep whatever JSON value the request carried. */
  datatype Device = Device(username: Value, empId: Value, createdAt: int)

  /** An ASCII capital letter. */
  predicate Upper(c: char) {
    'A' <= c <= 'Z'
  }

  /** Two characters that are the same letter ignoring case: equal, or one is
      the ASCII capital of the other. */
  predicate EqualIgnoringCase(c: char, d: char) {
    || c == d
    || (Upper(c) && d as int == c as int + 32)
    || (Upper(d) && c as int == d as int + 32)
  }

  /** `toLowerCase` on one character, restricted to the ASCII letters. */
  function LowerChar(c: char): (l: char)
    ensures !Upper(l)
    ensures EqualIgnoringCase(c, l)
  {
    if Upper(c) then (c as int + 32) as char else c
  }

  /** `toLowerCase` on a string: no capital remains, and each character is
      the same letter as before ignoring case. */
  function Lower(s: string): (r: string)
    ensures |r| == |s|
    ensures forall i :: 0 <= i < |r| ==> !Upper(r[i]) && EqualIgnoringCase(s[i], r[i])
  {
    seq(|s|, i requires 0 <= i < |s| => LowerChar(s[i]))
  }

  /** Two characters lower to the same one exactly when they are the same
      letter ignoring case. */
  lemma LowerCharAgrees(c: char, d: char)
    ensures LowerChar(c) == LowerChar(d) <==> EqualIgnoringCase(c, d)
  {
  }

  /** Two strings lower to the same string exactly when they have the same
      length and agree character by character ignoring case: the string
      form of `LowerCharAgrees`. */
  lemma LowerAgrees(s: string, t: string)
    ensures Lower(s) == Lower(t) <==> |s| == |t| && forall i :: 0 <= i < |s| ==> EqualIgnoringCase(s[i], t[i])
  {
  }

  /** Lowering a lowered string changes nothing. */
  lemma LowerIdempotent(s: string)
    ensures Lower(Lower(s)) == Lower(s)
  {
  }

  /** Two usernames that are equal ignoring case; only strings have a case.
      By `LowerAgrees`, two strings qualify exactly when they have the same
      length and agree character by character ignoring case. */
  predicate SameName(a: Value, b: Value) {
    a.Str? && b.Str? && Lower(a.s) == Lower(b.s)
  }

  /** The identity rule: a device is the same as a request when EITHER the
      employee id is strictly equal OR the username is equal ignoring case. */
  predicate Matches(d: Device, username: Value, empId: Value) {
    StrictEquals(d.empId, empId) || SameName(d.username, username)
  }

  /** When comparing `d` with a request whose username is truthy raises a
      TypeError: the ids differ, so `toLowerCase` is called on both
      usernames, and one of them is not a string. */
  predicate Throws(d: Device, username: Value, empId: Value) {
    !StrictEquals(d.empId, empId) && (!d.username.Str? || !username.Str?)
  }

  /** What one call of `findDevice`'s callback does. */
  datatype Probe = Hit | Miss | Fail

  /** The callback of `findDevice` on one device, in JavaScript's evaluation
      order: `===` on the ids first, and only if that is false, the two
      `toLowerCase` calls, stored username first. */
  function Callback(d: Device, username: Value, empId: Value): (p: Probe)
    ensures Truthy(username) ==> (p.Hit? <==> Matches(d, username, empId))
    ensures Truthy(username) ==> (p.Fail? <==> Throws(d, username, empId))
  {
    if StrictEquals(d.empId, empId) then Hit
    else if !d.username.Str? then Fail
    else
      var other := Or(username, Str(""));
      if !other.Str? then Fail
      else if Lower(d.username.s) == Lower(other.s) then Hit
      else Miss
  }

  /** Index `i` is where `Array.find` stops: the callback did not return
      false there, and returned false at every earlier index. */
  predicate StopsAt(devices: seq<Device>, username: Value, empId: Value, i: int) {
    && 0 <= i < |devices|
    && !Callback(devices[i], username, empId).Miss?
    && forall j :: 0 <= j < i ==> Callback(devices[j], username, empId).Miss?
  }

  /** The result of `findDevice`: the first matching device, `undefined`, or
      the TypeError its callback raised. */
  datatype Lookup = NotFound | Found(device: Device) | Threw

  /** `DEVICES.find(...)` as in `findDevice`: scans from the front and stops
      at the first device the callback accepts or throws on. */
  function Find(devices: seq<Device>, username: Value, empId: Value): (r: Lookup)
    ensures r.NotFound? <==> forall i :: 0 <= i < |devices| ==> Callback(devices[i], username, empId).Miss?
    ensures r.Found? ==> exists i :: StopsAt(devices, username, empId, i)
                                 && devices[i] == r.device && Callback(devices[i], username, empId).Hit?
    ensures r.Threw? ==> exists i :: StopsAt(devices, username, empId, i)
                                 && Callback(devices[i], username, empId).Fail?
  {
    if |devices| == 0 then NotFound
    else
      match Callback(devices[0], username, empId)
      case Hit =>
        assert StopsAt(devices, username, empId, 0);
        Found(devices[0])
      case Fail =>
        assert StopsAt(devices, username, empId, 0);
        Threw
      case Miss =>
        var r := Find(devices[1..], username, empId);
        assert forall i :: StopsAt(devices[1..], username, empId, i) ==> StopsAt(devices, username, empId, i + 1);
        r
  }

  /** The response of `POST /devices`: 400, 409 with the existing record,
      201 with the new record, or 500 for an uncaught TypeError. */
  datatype Reply = Invalid | Conflict(existing: Device) | Created(item: Device) | Fault

  /** A reply together with the registry after the request. */
  datatype Outcome = Outcome(reply: Reply, devices: seq<Device>)

  /** No device before index `i` matches the request or makes the lookup throw. */
  predicate ClearBefore(devices: seq<Device>, username: Value, empId: Value, i: int)
    requires 0 <= i <= |devices|
  {
    forall j :: 0 <= j < i ==> !Matches(devices[j], username, empId) && !Throws(devices[j], username, empId)
  }

  /** `POST /devices` with the body's `username` and `empId` already read. */
  function Register(devices: seq<Device>, username: Value, empId: Value, now: int): (r: Outcome)
    ensures r.reply.Invalid? <==> !Truthy(username) || !Truthy(empId)
    ensures !r.reply.Created? ==> r.devices == devices
    ensures r.reply.Created? <==> Truthy(username) && Truthy(empId) && ClearBefore(devices, username, empId, |devices|)
    ensures r.reply.Created? ==> (&& r.reply.item == Device(username, empId, now)
                                  && r.devices == devices + [r.reply.item])
    ensures r.reply.Conflict? ==>
              exists i :: 0 <= i < |devices| && ClearBefore(devices, username, empId, i)
                       && Matches(devices[i], username, empId) && devices[i] == r.reply.existing
    ensures (Truthy(username) && Truthy(empId) &&
             exists i :: 0 <= i < |devices| && ClearBefore(devices, username, empId, i)
                      && Matches(devices[i], username, empId)) ==> r.reply.Conflict?
    ensures r.reply.Fault? <==> (Truthy(username) && Truthy(empId) &&
              exists i :: 0 <= i < |devices| && ClearBefore(devices, username, empId, i)
                       && Throws(devices[i], username, empId))
  {
    if !Truthy(username) || !Truthy(empId) then Outcome(Invalid, devices)
    else
      match Find(devices, username, empId)
      case Found(existing) => Outcome(Conflict(existing), devices)
      case Threw => Outcome(Fault, devices)
      case NotFound =>
        var item := Device(username, empId, now);
        Outcome(Created(item), devices + [item])
  }

  /** `POST /devices` on the parsed request body. */
  function RegisterBody(devices: seq<Device>, body: Value, now: int): (r: Outcome)
    ensures !body.Obj? ==> r == Outcome(Invalid, devices)
    ensures r.reply.Created? ==> (&& body.Obj?
                                  && "username" in body.fields && "empId" in body.fields
                                  && r.reply.item.username == body.fields["username"]
                                  && r.reply.item.empId == body.fields["empId"])
  {
    Register(devices, Field(body, "username"), Field(body, "empId"), now)
  }

  /** `GET /devices`: the stored array itself. */
  function List(devices: seq<Device>): seq<Device> {
    devices
  }

  /** The registry's invariant: no two devices are the same under the
      identity rule, both identity fields of each are truthy, and a
      username that is not a string can only be the sole entry. */
  predicate Valid(devices: seq<Device>) {
    && (forall i, j :: 0 <= i < j < |devices| ==> !Matches(devices[i], devices[j].username, devices[j].empId))
    && (forall i :: 0 <= i < |devices| ==> Truthy(devices[i].username) && Truthy(devices[i].empId))
    && (|devices| >= 2 ==> forall i :: 0 <= i < |devices| ==> devices[i].username.Str?)
  }
}

=== FILE: registry_properties.dfy ===
/** Properties of the device registry across one or many registrations. */
module RegistryProperties {
  import opened JsValue
  import opened Registry

  /** One `POST /devices` request: the body's two fields and the clock. */
  datatype Request = Request(username: Value, empId: Value, now: int)

  /** The registry and the replies after a run of requests, in order. */
  datatype Run = Run(devices: seq<Device>, replies: seq<Reply>)

  /** Handles the requests one after another, as the single-threaded server does. */
  function Replay(devices: seq<Device>, requests: seq<Request>): (r: Run)
    ensures |r.replies| == |requests|
    decreases |requests|
  {
    if |requests| == 0 then Run(devices, [])
    else
      var o := Register(devices, requests[0].username, requests[0].empId, requests[0].now);
      var rest := Replay(o.devices, requests[1..]);
      Run(rest.devices, [o.reply] + rest.replies)
  }

  /** The records of the successful replies, in reply order. */
  function CreatedItems(replies: seq<Reply>): seq<Device> {
    if |replies| == 0 then []
    else (if replies[0].Created? then [replies[0].item] else []) + CreatedItems(replies[1..])
  }

  /** A successful registration keeps the registry's invariant. */
  lemma RegisterPreservesValid(devices: seq<Device>, username: Value, empId: Value, now: int)
    requires Valid(devices)
    ensures Valid(Register(devices, username, empId, now).devices)
  {
  }

  /** Listing after any run shows the initial devices followed by exactly the
      records the successful registrations returned, in request order. */
  lemma {:induction false} ReplayListsInInsertionOrder(devices: seq<Device>, requests: seq<Request>)
    ensures var r := Replay(devices, requests);
            List(r.devices) == devices + CreatedItems(r.replies)
    decreases |requests|
  {
    if |requests| > 0 {
      var o := Register(devices, requests[0].username, requests[0].empId, requests[0].now);
      var rest := Replay(o.devices, requests[1..]);
      ReplayListsInInsertionOrder(o.devices, requests[1..]);
      assert ([o.reply] + rest.replies)[1..] == rest.replies;
      if o.reply.Created? {
        calc {
          rest.devices;
          o.devices + CreatedItems(rest.replies);
          (devices + [o.reply.item]) + CreatedItems(rest.replies);
          devices + ([o.reply.item] + CreatedItems(rest.replies));
        }
      }
    }
  }

  /** Every run of registrations keeps the registry's invariant. */
  lemma {:induction false} ReplayPreservesValid(devices: seq<Device>, requests: seq<Request>)
    requires Valid(devices)
    ensures Valid(Replay(devices, requests).devices)
    decreases |requests|
  {
    if |requests| > 0 {
      RegisterPreservesValid(devices, requests[0].username, requests[0].empId, requests[0].now);
      var o := Register(devices, requests[0].username, requests[0].empId, requests[0].now);
      ReplayPreservesValid(o.devices, requests[1..]);
    }
  }

  /** Registering an employee id that is already stored never succeeds, for
      any truthy username. A string username always conflicts; it conflicts
      with the first call's record unless an earlier device has that username
      ignoring case, which `Array.find` reaches first. A username that is not
      a string makes the lookup throw at the first earlier device, and
      conflicts with the first call's record when there is none. */
  lemma SameEmpIdTwice(devices: seq<Device>, u1: Value, u2: Value, empId: Value, t1: int, t2: int)
    requires Register(devices, u1, empId, t1).reply.Created?
    requires Truthy(u2)
    requires Primitive(empId)
    ensures var first := Register(devices, u1, empId, t1);
            var second := Register(first.devices, u2, empId, t2);
            && second.devices == first.devices
            && (second.reply.Conflict? || second.reply.Fault?)
            && (second.reply.Fault? <==> !u2.Str? && |devices| > 0)
            && ((!second.reply.Fault? && forall i :: 0 <= i < |devices| ==> !SameName(devices[i].username, u2))
                ==> second.reply == Conflict(first.reply.item))
            && (SameName(u1, u2) ==> second.reply == Conflict(first.reply.item))
  {
    var first := Register(devices, u1, empId, t1);
    var ds := first.devices;
    var x := first.reply.item;
    assert ClearBefore(devices, u1, empId, |devices|);
    assert StrictEquals(x.empId, empId);
    if u2.Str? {
      assert ClearBefore(ds, u2, empId, 0);
      if forall i :: 0 <= i < |devices| ==> !SameName(devices[i].username, u2) {
        assert ClearBefore(ds, u2, empId, |devices|);
      } else {
        var k :| 0 <= k < |devices| && SameName(devices[k].username, u2);
        var i := FirstMatch(devices, u2, empId, k);
        assert ClearBefore(ds, u2, empId, i);
      }
    } else if |devices| > 0 {
      assert Throws(ds[0], u2, empId) && ClearBefore(ds, u2, empId, 0);
    } else {
      assert ClearBefore(ds, u2, empId, 0) && Matches(ds[0], u2, empId);
    }
    if SameName(u1, u2) {
      forall i | 0 <= i < |devices|
        ensures !SameName(devices[i].username, u2)
      {
        assert !Matches(devices[i], u1, empId);
      }
    }
  }

  /** An array or object employee id is never `===` to a stored one, so
      the same id can be registered again: with a string username that
      matches no stored username ignoring case, the second registration
      succeeds as well. */
  lemma CompoundIdRegistersTwice(devices: seq<Device>, u1: Value, u2: Value, empId: Value, t1: int, t2: int)
    requires Register(devices, u1, empId, t1).reply.Created?
    requires !Primitive(empId)
    requires u1.Str? && u2.Str? && Truthy(u2) && !SameName(u1, u2)
    requires forall i :: 0 <= i < |devices| ==> !SameName(devices[i].username, u2)
    ensures var first := Register(devices, u1, empId, t1);
            var second := Register(first.devices, u2, empId, t2);
            && second.reply == Created(Device(u2, empId, t2))
            && second.devices == devices + [Device(u1, empId, t1), Device(u2, empId, t2)]
  {
  }

  /** From a matching device at `k`, the earliest index at or before `k`
      that matches, where no earlier device matches. */
  lemma FirstMatch(devices: seq<Device>, username: Value, empId: Value, k: int) returns (i: int)
    requires 0 <= k < |devices|
    requires Matches(devices[k], username, empId)
    ensures 0 <= i <= k
    ensures Matches(devices[i], username, empId)
    ensures forall j :: 0 <= j < i ==> !Matches(devices[j], username, empId)
  {
    i := k;
    while exists j :: 0 <= j < i && Matches(devices[j], username, empId)
      invariant 0 <= i <= k
      invariant Matches(devices[i], username, empId)
      decreases i
    {
      var j :| 0 <= j < i && Matches(devices[j], username, empId);
      i := j;
    }
  }

  /** The identity rule is a disjunction: on a valid registry, a string
      username and an employee id that either condition alone matches
      against some stored device already give a conflict, carrying a device
      stored no later than that one. */
  lemma EitherConditionConflicts(devices: seq<Device>, username: Value, empId: Value, now: int, k: int)
    requires Valid(devices)
    requires Truthy(username) && username.Str? && Truthy(empId)
    requires 0 <= k < |devices|
    requires StrictEquals(devices[k].empId, empId) || SameName(devices[k].username, username)
    ensures var r := Register(devices, username, empId, now);
            && r.devices == devices
            && r.reply.Conflict?
            && exists i :: 0 <= i <= k && devices[i] == r.reply.existing
  {
  }

  /** A first registration whose username is truthy but not a string (a
      number, `true`, an array or an object) is stored, and from then on every
      registration with a different employee id raises a TypeError: the
      callback calls `toLowerCase` on the stored username. */
  lemma NonStringUsernameBlocksLaterIds(u1: Value, e1: Value, t1: int, u2: Value, e2: Value, t2: int)
    requires Truthy(u1) && !u1.Str? && Truthy(e1)
    requires Truthy(u2) && Truthy(e2) && !StrictEquals(e1, e2)
    ensures var first := Register([], u1, e1, t1);
            && first.reply.Created?
            && Register(first.devices, u2, e2, t2) == Outcome(Fault, first.devices)
  {
  }

  /** "Alice" then "alice" under different employee ids: the second is a
      conflict carrying the first record. */
  lemma CaseVariantConflicts(t1: int, t2: int)
    ensures var first := Register([], Str("Alice"), Str("E1"), t1);
            && first.reply == Created(Device(Str("Alice"), Str("E1"), t1))
            && Register(first.devices, Str("alice"), Str("E2"), t2).reply == Conflict(first.reply.item)
  {
  }
}

=== FILE: settings.dfy ===
/** The server's configuration, as the handlers see it once the environment
    has been read. Reading the environment itself is not modelled: a
    `Config` is a parameter of every operation that depends on it. */
module Settings {

  datatype Config = Config(
    /** The only URL path on which a WebSocket is handed to the broker. */
    wsPath: string,
    /** The topic an accepted order is published on. */
    statusTopic: string)

  /** The values used when the environment sets nothing. */
  const Defaults: Config := Config("/mqtt", "devices/status")
}

=== FILE: transport.dfy ===
/** The WebSocket upgrade gate: a connection is handed to the MQTT broker
    only when the path of its request URL is the configured WebSocket path;
    any other connection is closed. */
module Transport {
  import opened Settings

  datatype Option<T> = None | Some(value: T)

  /** What the `connection` handler does with the socket. */
  datatype Action = HandToBroker | Close

  /** A character that ends the path part of a request target. */
  predicate Delimiter(c: char) {
    c == '?' || c == '#'
  }

  /** Contains neither `?` nor `#`. */
  predicate PlainPath(s: string) {
    forall i :: 0 <= i < |s| ==> !Delimiter(s[i])
  }

  /** The length of the path part of `url`: up to the first `?` or `#`. */
  function PathEnd(url: string): (n: nat)
    ensures n <= |url|
    ensures PlainPath(url[..n])
    ensures n < |url| ==> Delimiter(url[n])
  {
    if |url| == 0 || Delimiter(url[0]) then 0
    else
      var n := 1 + PathEnd(url[1..]);
      assert url[..n] == [url[0]] + url[1..][..n - 1];
      n
  }

  /** The `pathname` of the request URL, `None` standing for `null` when the
      path part is empty. */
  function Pathname(url: string): (p: Option<string>)
    ensures p.None? <==> url == [] || Delimiter(url[0])
    ensures p.Some? ==> p.value != [] && PlainPath(p.value) && p.value <= url
    ensures p.Some? ==> |p.value| == |url| || Delimiter(url[|p.value|])
  {
    var n := PathEnd(url);
    if n == 0 then None else Some(url[..n])
  }

  /** `PathEnd` is the only length whose prefix is plain and which stops at
      a delimiter or at the end. */
  lemma {:induction false} PathEndUnique(url: string, m: nat)
    requires m <= |url|
    requires PlainPath(url[..m])
    requires m == |url| || Delimiter(url[m])
    ensures PathEnd(url) == m
    decreases m
  {
    if m > 0 {
      assert url[..m][0] == url[0];
      assert url[1..][..m - 1] == url[..m][1..];
      PathEndUnique(url[1..], m - 1);
    }
  }

  /** The pathname is `w` exactly when the request target is `w` itself or
      `w` followed by a query or a fragment, for a non-empty plain `w`. */
  lemma PathnameIs(url: string, w: string)
    ensures Pathname(url) == Some(w) <==>
              && w != []
              && PlainPath(w)
              && w <= url
              && (|url| == |w| || Delimiter(url[|w|]))
  {
    if w != [] && PlainPath(w) && w <= url && (|url| == |w| || Delimiter(url[|w|])) {
      assert url[..|w|] == w;
      PathEndUnique(url, |w|);
    }
  }

  /** The `connection` handler: hand the socket to the broker when the
      pathname is the WebSocket path, otherwise close it. Equivalently, the
      request target is the path itself or the path followed by a query or a
      fragment, and a path that itself contains `?` or `#` never admits. */
  function OnConnection(cfg: Config, url: string): (a: Action)
    ensures a == HandToBroker <==>
              && cfg.wsPath != []
              && PlainPath(cfg.wsPath)
              && cfg.wsPath <= url
              && (|url| == |cfg.wsPath| || Delimiter(url[|cfg.wsPath|]))
  {
    PathnameIs(url, cfg.wsPath);
    if Pathname(url) == Some(cfg.wsPath) then HandToBroker else Close
  }

  /** A query string or fragment never changes the decision. */
  lemma QueryDoesNotMatter(cfg: Config, path: string, rest: string)
    ensures OnConnection(cfg, path + "?" + rest) == OnConnection(cfg, path)
    ensures OnConnection(cfg, path + "#" + rest) == OnConnection(cfg, path)
  {
    var n := PathEnd(path);
    var q, h := path + "?" + rest, path + "#" + rest;
    assert q[..n] == path[..n] && h[..n] == path[..n];
    assert n < |path| ==> q[n] == path[n] && h[n] == path[n];
    assert q[|path|] == '?' && h[|path|] == '#';
    PathEndUnique(q, n);
    PathEndUnique(h, n);
  }

  /** With the default configuration, `/mqtt` and `/mqtt?x=1` reach the
      broker; `/`, `/mqtt/` and `/MQTT` are closed. */
  lemma DefaultPathExamples()
    ensures OnConnection(Defaults, "/mqtt") == HandToBroker
    ensures OnConnection(Defaults, "/mqtt?x=1") == HandToBroker
    ensures OnConnection(Defaults, "/") == Close
    ensures OnConnection(Defaults, "/mqtt/") == Close
    ensures OnConnection(Defaults, "/MQTT") == Close
  {
  }
}
